=== FILE: README.md ===
# Segment rotation and upload in the scratchdata ingest writer, modelled in Dafny

The ingest writer (`ingest/writer.go`) stages JSON records on local disk before
they go to object storage. Each record is appended as one line to the open
segment file under `<data>/open`. Before appending, the writer rotates when the
file's size plus the record's length passes `MaxSizeBytes`. A timer also rotates
a non-empty segment. Rotation renames the open file into `<data>/closed` under
its own name and, unless the writer is closing, opens a fresh `<ulid>.ndjson`.
An upload pump lists the closed directory. It uploads each non-empty segment
to S3 under `<upload dir>/<file name>` and sends an SQS message made of the
tags plus `bucket` and `key`. It then deletes the local file. A failed upload
or send is fatal.

This project models that core as pure transitions over an immutable state:

- `Segments.FileWriter`: the optional open segment, the closed segments in
  the order they were closed, the `rotating` flag, and `nextId`, the next draw of the
  fresh-name supply that stands for ULID generation.
- `Segments.Segment(id, lines)` is one segment file, named `FileName(id)`,
  which is `<id>.ndjson`.
- `Segments.Line(data, row, batchFile)` is one persisted line: the caller's
  record merged with its `__row_id` (the text of draw `row`) and its
  `__batch_file`. The source merges the two into a single JSON object with
  gjson `@join`; it does not write a two-element array.
- Filesystem failures are injected with a `Fault` naming the one call that
  fails. S3, SQS and local deletion are an `Attempt` oracle per segment.

Modules: `Ids` (fresh-name texts), `Paths` (join and split), `Segments` (state
and invariant), `Rotation` (`Rotate`, timer tick, `Close`, startup), `Ingest`
(`Write`) and `Upload` (object key, notification, upload pump).

The invariant `Segments.Inv` says four things. Segment ids are distinct and
drawn from the supply. Rows are unique. Every line's `__batch_file` names the
segment that holds it. It follows that segment names are distinct and every
record sits at exactly one place on disk. Every transition keeps `Inv`. Rotation
keeps the sequence of records unchanged. A successful write adds exactly one
record. A pump pass removes a segment only when it was empty or delivered.

The size check compares the size on disk plus the raw record length. It does
not use the longer line that is then written. So a segment can end up larger
than `MaxSizeBytes`, either by a record that exactly reaches the limit or by an
oversized record written alone into a fresh segment.

## Model

| member | source | states |
|---|---|---|
| `Ids.ParseText` | ingest/writer.go:264 | the text of a fresh-name draw reads back as that draw |
| `Ids.TextInjective` | ingest/writer.go:306 | two different draws never give the same id text, so row ids and segment ids are unique |
| `Paths.Join` | ingest/writer.go:272 | the joined path starts with the directory and ends with the name, without overlap and with at most one separator added; the name is preceded by a separator whenever the directory is non-empty, and an empty directory gives the name itself |
| `Paths.FileOf` | ingest/writer.go:305 | the file part of a path contains no separator |
| `Paths.FileOfJoin` | ingest/writer.go:305 | splitting a joined path returns the slash-free name that was joined |
| `Paths.JoinInjective` | ingest/writer.go:131 | one directory joined with two different names gives two different paths |
| `Segments.FileName` | ingest/writer.go:272 | a segment's file name has no separator and ends in `.ndjson` |
| `Segments.FileNameInjective` | ingest/writer.go:264-272 | different ids give different `<id>.ndjson` names |
| `Segments.MetaText` | ingest/writer.go:306 | the metadata object written beside a record: its `__row_id` and its `__batch_file` |
| `Segments.MetaTextDetermines` | ingest/writer.go:306 | the metadata reads back unambiguously: equal metadata texts carry the same row id and the same batch file |
| `Segments.Size` | ingest/writer.go:291-296 | a segment's size is zero exactly when it holds no line |
| `Segments.NamesDistinct` | ingest/writer.go:256-272 | under the invariant no two segments on disk share a file name |
| `Segments.RecordInOnePlace` | ingest/writer.go:305-310 | under the invariant a record is found at one segment and one position only, and its `__batch_file` names that segment |
| `Rotation.OpenFresh` | ingest/writer.go:263-279 | with createNew the id is drawn first; on success the open segment is a fresh empty one under that id; it fails exactly when the mkdir or the open fails, and then leaves no open segment; without createNew nothing changes and nothing fails |
| `Rotation.Rotate` | ingest/writer.go:215-282 | with the flag held, a no-op reporting success; otherwise on success every segment is closed (the open one appended unchanged), a fresh one is open exactly when createNew, and exactly one id is drawn for it; a failing Stat, Close, mkdir or rename of the move returns that error with the state unchanged; a failure opening the new file leaves every segment closed, nothing open, and the id drawn; it fails exactly when the flag is free and a call it makes fails: a move call when a segment is open, or the mkdir or open of the new file when createNew |
| `Rotation.RotateSegments` | ingest/writer.go:233-279 | a rotation leaves the segments on disk as they were, plus at most one new empty segment named by the next draw |
| `Rotation.RotatePreservesRecords` | ingest/writer.go:233-261 | the records across open and closed, in order, are the same after rotating |
| `Rotation.RotatePreservesInv` | ingest/writer.go:215-282 | rotation keeps the invariant |
| `Rotation.RotateNamesFresh` | ingest/writer.go:263-272 | the segment a rotation opens is named unlike every segment already on disk |
| `Rotation.Tick` | ingest/writer.go:108-116 | a tick leaves the state unchanged when there is no open file, its Stat fails or it is empty; otherwise it is a rotation that opens a new segment |
| `Rotation.TickRotatesNonEmpty` | ingest/writer.go:113-115 | an undisturbed tick on a non-empty segment closes it and opens a fresh empty one |
| `Rotation.TickPreserves` | ingest/writer.go:108-116 | a tick keeps the invariant and the records |
| `Rotation.Close` | ingest/writer.go:322-324 | the final rotation leaves no open segment and every segment closed, unless the flag is held or the move fails |
| `Rotation.ClosePreserves` | ingest/writer.go:323-325 | Close keeps the invariant and the records |
| `Rotation.Start` | ingest/writer.go:84-85 | startup establishes the invariant with no closed segment; undisturbed, it opens the empty segment of draw 0 |
| `Ingest.BatchFileIsName` | ingest/writer.go:305 | the file part of the open segment's path is the segment's own name |
| `Ingest.Exceeds` | ingest/writer.go:296 | the size check adds the raw record length, not the length of the line that will be written, to the size on disk and compares it strictly with the limit |
| `Ingest.Append` | ingest/writer.go:304-315 | one row id is drawn; it fails exactly when the write of the line fails; on success the open segment gains exactly the line of the record, that row and its own name; a failed write appends nothing |
| `Ingest.MakeRoom` | ingest/writer.go:290-302 | a failed Stat is reported and changes nothing; otherwise, when the size check is exceeded, the result is the rotation that opens a new segment, and else nothing changes; any failure names the failing call and success leaves a segment open |
| `Ingest.Write` | ingest/writer.go:284-316 | without an open file, or when the size-check Stat fails, the write fails and changes nothing; a failed write of the line is reported as such; a success ends the open segment with the record's line, whose `__batch_file` names that segment |
| `Ingest.WriteRotatesIffExceeds` | ingest/writer.go:296-298 | undisturbed, a segment is closed before appending exactly when size plus record length exceeds the limit; then the record is the first line of a fresh segment, else it joins the open one |
| `Ingest.OversizedRecordWritten` | ingest/writer.go:296-310 | a record longer than the limit is still written, alone in a fresh segment that then exceeds the limit |
| `Ingest.SegmentCanPassThreshold` | ingest/writer.go:296-310 | a record that exactly reaches the limit is appended without rotation and the segment passes the limit |
| `Ingest.RotationFailureStopsWrite` | ingest/writer.go:296-302 | when the triggered rotation fails, the write returns that rotation's error and state and appends nothing |
| `Ingest.HeldFlagAppendsToOldSegment` | ingest/writer.go:296-310 | with the rotation flag held the triggered rotation is skipped and the record joins the still-open old segment |
| `Ingest.MakeRoomPreserves` | ingest/writer.go:296-302 | the size check and its rotation keep the records and the invariant |
| `Ingest.AppendRecords` | ingest/writer.go:305-315 | appending adds exactly the new line at the end of the records, or nothing on failure, and keeps the invariant |
| `Ingest.WriteRecords` | ingest/writer.go:305-315 | a successful write adds exactly one record at the end, naming the segment it landed in; a failed write leaves the records as they were |
| `Ingest.WritePreservesInv` | ingest/writer.go:284-316 | writing keeps the invariant, on success and on every failure |
| `Upload.Key` | ingest/writer.go:131 | the object key starts with the upload directory and ends with the segment's file name, the two not overlapping, with a separator before the name when the directory is non-empty |
| `Upload.KeyNamesSegment` | ingest/writer.go:131 | the object key's file part is the segment's file name |
| `Upload.KeyInjective` | ingest/writer.go:131 | segments with different ids get different object keys |
| `Upload.Message` | ingest/writer.go:142-148 | the message holds every tag; `bucket` and `key` are set after the tags and win over tags of those names |
| `Upload.BuildMessage` | ingest/writer.go:142-148 | copying the tags one by one, then setting `bucket` and `key`, gives exactly that message |
| `Upload.Notification` | ingest/writer.go:142-148 | the message announcing a segment holds every configured tag, `bucket` set to the bucket and `key` set to the segment's object key, the last two winning over tags of those names |
| `Upload.UploadFile` | ingest/writer.go:121-164 | the upload succeeds exactly when open, put and send all do; then the records are stored under the key and exactly one message, the segment's notification, is appended to the queue; once the put succeeds the records are stored under the key even if the send then fails; a failed open or put changes nothing remote; a failed attempt queues no message; no other object changes |
| `Upload.PumpEntry` | ingest/writer.go:196-208 | an empty segment is removed with no upload or message; for a non-empty one a failed upload is fatal and keeps it; removal only follows delivery |
| `Upload.PumpEntries` | ingest/writer.go:188-209 | a pass keeps only listed segments and only appends to the queue |
| `Upload.PumpLeavesOtherObjects` | ingest/writer.go:196-201 | a pass changes no stored object outside the keys of non-empty listed segments |
| `Upload.PumpHaltsOnlyOnFailure` | ingest/writer.go:196-208 | a pass halts only at a non-empty segment that failed to upload, and that segment stays on disk |
| `Upload.PumpHaltsOnFailure` | ingest/writer.go:196-208 | every non-empty segment that fails to upload halts the pass |
| `Upload.PumpHaltsIffFailure` | ingest/writer.go:196-208 | a pass halts if and only if some non-empty segment fails to upload |
| `Upload.PumpKeepsUnremoved` | ingest/writer.go:201-205 | without a halt, exactly the segments whose removal failed stay on disk |
| `Upload.PumpKeepsDistinct` | ingest/writer.go:188-209 | the segments a pass keeps still have distinct ids |
| `Upload.PumpRemovesOnlyDelivered` | ingest/writer.go:196-205 | a segment leaves the closed directory only if it was empty or its records are stored under its key and its message sent |
| `Upload.PumpPass` | ingest/writer.go:170-212 | a pass changes only the closed segments, to a subset; a failed listing changes nothing; the loop goes on exactly when not draining and not halted; it halts exactly when a non-empty segment fails to upload |
| `Upload.PumpPassPreservesInv` | ingest/writer.go:167-213 | a pass keeps the invariant |
| `Upload.PumpPassLosesNothing` | ingest/writer.go:196-208 | after a pass every previously closed segment is still on disk, or was empty, or was delivered |
| `Upload.CloseRightAfterStart` | ingest/writer.go:318-335 | closing with nothing written moves the empty first segment to closed; the next pass removes it with no upload or message, and a drained pump stops |

## Left out

- Goroutines, channels, the `WaitGroup`, the ticker, the one-second sleep and the blocking `canWrite` mutex are not modelled. Each operation is one atomic transition. `Close` is modelled only as its final rotation; the pump's drain signal is the `drain` argument of `PumpPass`.
- The `rotating` try-lock is a state flag. No modelled operation changes it, because each rotation acquires and releases the lock within itself. Within the package the flag is never found held: every `Rotate` call happens either before the goroutines start (writer.go:85) or with `canWrite` locked (writer.go:108-116, 287-297, 323-324), so `TryLock` always succeeds. `Ingest.HeldFlagAppendsToOldSegment` and the held-flag clauses of `Rotation.Rotate` describe a state reachable only through an outside caller of the exported `Rotate`.
- ULIDs are not modelled. Draws come from a counter and are written as variable-width base-32 numerals. This keeps distinctness and drops the 26-character, time-sortable layout.
- S3 `PutObject` and SQS `SendMessage` are an oracle (`Attempt`), and so are `os.Open` and `os.Remove` in the pump. The content disposition `attachment` and the JSON encoding of the message are not modelled; `json.Marshal` of a string map cannot fail.
- `Segments.LineSize`: the size charged to a line is the record bytes plus the metadata text plus the newline. gjson's `@join`/`@ugly` rewriting (merging the braces, removing whitespace) is not reproduced, and neither is JSON escaping in the metadata text.
- `Ingest.Write`: `fileinfo.Size()+int64(len(data))` is computed in 64 bits in the source. The model uses unbounded integers, so it ignores overflow near 2^63.
- `Ingest.Append`: a short or partial `WriteString` is modelled as writing nothing.
- `Rotation.Rotate`: a handle that is closed but still referenced is modelled as no open segment. This happens after `Rotate(false)`, and after a failed mkdir when opening a new file. The source's `Stat` on such a handle fails, whereas the model's rotation skips the move and goes on to open a new file. A `Write` fails in both.
- `Rotation.Rotate`: when the move fails at the file's `Close`, or when `Close` succeeds but the mkdir or rename after it fails, the model keeps the segment open and usable. In the source, a failed `Close` leaves the handle in an unspecified state, and after a successful one the handle is already closed.
- `Rotation.Tick`: when `Stat` fails, the source dereferences the missing file info. The model leaves the state unchanged. A tick with no open file is the same case: `Stat` on a nil or closed handle fails, and the source then crashes on the same dereference, whereas the model leaves the state unchanged.
- `Upload.PumpEntries`: an `e.Info()` failure is the same defect (a nil dereference) and is not modelled. Entries are taken in the stored order of the closed segments; `os.ReadDir` sorting by file name is not modelled.
- `Upload.PumpPass`: a failed `ReadDir` `continue`s without sleeping. The model treats this as a pass that changes nothing.
- `Paths.Join`: `filepath.Join`'s cleaning of `.`, `..` and repeated separators is not modelled. Directories are taken as already clean.
- `Rotation.Start`: the directory creation in `NewFileWriter` only logs errors, so it is not modelled. Segments that a previous process left in the closed directory are also not modelled.
- Closed segments that are renamed into the closed directory keep their base name, so the closed directory's name plays no part and is not modelled.
- `servers/servers.go` declares interfaces only. Configuration loading and `client.NewClient` are not part of this model.

=== FILE: ids.dfy ===
/**
 The fresh-name supply. The writer names every segment and every row with a
 ULID. This model draws names from a counter instead and writes each draw in
 Crockford's base-32 alphabet, the alphabet ULIDs are written in, so that
 distinct draws give distinct texts.
 */
module Ids {

  /** The characters of Crockford's base-32 alphabet: 0-9 and A-Z without I, L, O and U. */
  predicate IsDigit(c: char) {
    || ('0' <= c <= '9')
    || ('A' <= c <= 'H')
    || c == 'J' || c == 'K'
    || c == 'M' || c == 'N'
    || ('P' <= c <= 'T')
    || ('V' <= c <= 'Z')
  }

  /** The digit of value d. */
  function Digit(d: nat): (c: char)
    requires d < 32
    ensures IsDigit(c)
  {
    if d < 10 then ('0' as int + d) as char
    else if d < 18 then ('A' as int + (d - 10)) as char
    else if d < 20 then ('J' as int + (d - 18)) as char
    else if d < 22 then ('M' as int + (d - 20)) as char
    else if d < 27 then ('P' as int + (d - 22)) as char
    else ('V' as int + (d - 27)) as char
  }

  /** The value of a digit; it is the one d whose Digit is c. */
  function Value(c: char): (d: nat)
    requires IsDigit(c)
    ensures d < 32 && Digit(d) == c
  {
    if '0' <= c <= '9' then c as int - '0' as int
    else if 'A' <= c <= 'H' then c as int - 'A' as int + 10
    else if c == 'J' || c == 'K' then c as int - 'J' as int + 18
    else if c == 'M' || c == 'N' then c as int - 'M' as int + 20
    else if 'P' <= c <= 'T' then c as int - 'P' as int + 22
    else c as int - 'V' as int + 27
  }

  lemma ValueOfDigit(d: nat)
    requires d < 32
    ensures Value(Digit(d)) == d
  {
  }

  /** The text of draw n: its base-32 numeral, most significant digit first. */
  function Text(n: nat): (s: string)
    ensures |s| > 0
    ensures forall i :: 0 <= i < |s| ==> IsDigit(s[i])
    decreases n
  {
    if n < 32 then [Digit(n)] else Text(n / 32) + [Digit(n % 32)]
  }

  /** Reads a numeral back. */
  function Parse(s: string): nat
    requires |s| > 0
    requires forall i :: 0 <= i < |s| ==> IsDigit(s[i])
  {
    if |s| == 1 then Value(s[0]) else Parse(s[..|s| - 1]) * 32 + Value(s[|s| - 1])
  }

  /** Parsing the text of a draw gives the draw back. */
  lemma {:induction false} ParseText(n: nat)
    ensures Parse(Text(n)) == n
    decreases n
  {
    if n < 32 {
      ValueOfDigit(n);
    } else {
      var s := Text(n);
      assert s[..|s| - 1] == Text(n / 32);
      ParseText(n / 32);
      ValueOfDigit(n % 32);
    }
  }

  /** Distinct draws have distinct texts. */
  lemma TextInjective(a: nat, b: nat)
    ensures Text(a) == Text(b) ==> a == b
  {
    ParseText(a);
    ParseText(b);
  }
}

=== FILE: ingest.dfy ===
/**
 Appending one record. With the write lock held, the writer Stats the open
 file, rotates first when the file's size plus the record's length passes the
 threshold, then appends the record merged with its metadata as one line.
 */
module Ingest {
  import opened Segments
  import Paths
  import Rotation

  /** The batch file the metadata names is the file part of the open
      segment's path under <data>/open, which is the segment's own name. */
  lemma BatchFileIsName(cfg: Config, s: Segment)
    ensures Paths.FileOf(Paths.Join(OpenDir(cfg), Name(s))) == Name(s)
  {
    Paths.FileOfJoin(OpenDir(cfg), Name(s));
  }

  /** The size check: the size already on disk plus the raw record length, not the longer line that will be written. */
  predicate Exceeds(cfg: Config, s: Segment, data: Bytes) {
    Size(s.lines) + |data| > cfg.maxSizeBytes
  }

  /** Draws the row id and writes the line to the open segment; its batch
      file is the open segment's name (see BatchFileIsName). */
  function Append(w: FileWriter, data: Bytes, fault: Fault): (r: Step)
    requires w.open.Some?
    ensures r.state.nextId == w.nextId + 1 && r.state.closed == w.closed && r.state.rotating == w.rotating
    ensures r.outcome == Ok ==> r.state.open == Some(w.open.value.(lines := w.open.value.lines + [Line(data, w.nextId, Name(w.open.value))]))
    ensures r.outcome.Failed? ==> r.state.open == w.open && r.outcome == Failed(WriteLine)
    ensures r.outcome.Failed? <==> fault == FailAt(WriteLine)
  {
    var s := w.open.value;
    var line := Line(data, w.nextId, Name(s));
    var drawn := w.(nextId := w.nextId + 1);
    if fault == FailAt(WriteLine) then Step(drawn, Failed(WriteLine))
    else Step(drawn.(open := Some(s.(lines := s.lines + [line]))), Ok)
  }

  /** The size check and, when it is exceeded, the rotation it triggers. */
  function MakeRoom(w: FileWriter, cfg: Config, data: Bytes, fault: Fault): (r: Step)
    requires w.open.Some?
    ensures r.state.rotating == w.rotating
    ensures r.outcome == Ok ==> r.state.open.Some?
    ensures r.outcome.Failed? ==> fault == FailAt(r.outcome.op)
    ensures fault == FailAt(SizeCheck) ==> r == Step(w, Failed(SizeCheck))
    ensures fault != FailAt(SizeCheck) && !Exceeds(cfg, w.open.value, data) ==> r == Step(w, Ok)
    ensures fault != FailAt(SizeCheck) && Exceeds(cfg, w.open.value, data) ==> r == Rotation.Rotate(w, true, fault)
  {
    if fault == FailAt(SizeCheck) then Step(w, Failed(SizeCheck))
    else if Exceeds(cfg, w.open.value, data) then Rotation.Rotate(w, true, fault)
    else Step(w, Ok)
  }

  /** Writes one record. Without an open file the Stat fails and nothing happens. */
  function Write(w: FileWriter, cfg: Config, data: Bytes, fault: Fault): (r: Step)
    ensures r.state.rotating == w.rotating
    ensures w.open.None? ==> r == Step(w, Failed(SizeCheck))
    ensures w.open.Some? && fault == FailAt(SizeCheck) ==> r == Step(w, Failed(SizeCheck))
    ensures w.open.Some? && fault == FailAt(WriteLine) ==> r.outcome == Failed(WriteLine)
    ensures r.outcome.Failed? ==> w.open.None? || fault == FailAt(r.outcome.op)
    ensures r.outcome == Ok ==>
      && r.state.open.Some? && r.state.nextId > 0
      && var s := r.state.open.value;
      && |s.lines| > 0
      && s.lines[|s.lines| - 1] == Line(data, r.state.nextId - 1, Name(s))
  {
    if w.open.None? then Step(w, Failed(SizeCheck))
    else
      var room := MakeRoom(w, cfg, data, fault);
      if room.outcome.Failed? then room else Append(room.state, data, fault)
  }

  /** Undisturbed, a write rotates first exactly when the size check is exceeded:
      then the old segment is closed and the record opens a fresh one;
      otherwise the record joins the open segment and nothing is closed. */
  lemma WriteRotatesIffExceeds(w: FileWriter, cfg: Config, data: Bytes)
    requires w.open.Some? && !w.rotating
    ensures var r := Write(w, cfg, data, NoFault);
      && r.outcome == Ok
      && (|r.state.closed| == |w.closed| + 1 <==> Exceeds(cfg, w.open.value, data))
      && (Exceeds(cfg, w.open.value, data) ==>
            && r.state.closed == w.closed + [w.open.value]
            && r.state.open == Some(Segment(w.nextId, [Line(data, w.nextId + 1, FileName(w.nextId))])))
      && (!Exceeds(cfg, w.open.value, data) ==>
            && r.state.closed == w.closed
            && r.state.open.value.id == w.open.value.id)
  {
    var l := Line(data, w.nextId + 1, FileName(w.nextId));
    assert [] + [l] == [l];
  }

  /** A record longer than the threshold is still written, alone in a fresh
      segment, which then holds more than the threshold. */
  lemma OversizedRecordWritten(w: FileWriter, cfg: Config, data: Bytes)
    requires w.open.Some? && !w.rotating
    requires |data| > cfg.maxSizeBytes
    ensures var r := Write(w, cfg, data, NoFault);
      && r.outcome == Ok
      && r.state.open.value.lines == [Line(data, w.nextId + 1, FileName(w.nextId))]
      && Size(r.state.open.value.lines) > cfg.maxSizeBytes
  {
    var l := Line(data, w.nextId + 1, FileName(w.nextId));
    SizeAppend([], l);
    assert [] + [l] == [l];
  }

  /** The check uses the raw record length: a record that exactly reaches the
      threshold is appended without rotation and the segment ends up larger
      than the threshold. */
  lemma SegmentCanPassThreshold(w: FileWriter, cfg: Config, data: Bytes)
    requires w.open.Some? && !w.rotating
    requires Size(w.open.value.lines) + |data| == cfg.maxSizeBytes
    ensures var r := Write(w, cfg, data, NoFault);
      && r.outcome == Ok
      && r.state.closed == w.closed
      && Size(r.state.open.value.lines) > cfg.maxSizeBytes
  {
    var s := w.open.value;
    SizeAppend(s.lines, Line(data, w.nextId, Name(s)));
  }

  /** When the triggered rotation fails, the write reports that failure and appends nothing. */
  lemma RotationFailureStopsWrite(w: FileWriter, cfg: Config, data: Bytes, fault: Fault)
    requires w.open.Some? && fault != FailAt(SizeCheck)
    requires Exceeds(cfg, w.open.value, data)
    requires Rotation.Rotate(w, true, fault).outcome.Failed?
    ensures Write(w, cfg, data, fault) == Rotation.Rotate(w, true, fault)
    ensures AllLines(Write(w, cfg, data, fault).state) == AllLines(w)
  {
    Rotation.RotatePreservesRecords(w, true, fault);
  }

  /** While another rotation holds the flag, the triggered rotation is skipped
      and the record is appended to the segment that is still open. */
  lemma HeldFlagAppendsToOldSegment(w: FileWriter, cfg: Config, data: Bytes)
    requires w.open.Some? && w.rotating
    ensures var r := Write(w, cfg, data, NoFault);
      && r.outcome == Ok
      && r.state.closed == w.closed
      && r.state.open == Some(w.open.value.(lines := w.open.value.lines + [Line(data, w.nextId, Name(w.open.value))]))
  {
  }

  /** Making room keeps the records and the invariant. */
  lemma MakeRoomPreserves(w: FileWriter, cfg: Config, data: Bytes, fault: Fault)
    requires w.open.Some?
    ensures AllLines(MakeRoom(w, cfg, data, fault).state) == AllLines(w)
    ensures Inv(w) ==> Inv(MakeRoom(w, cfg, data, fault).state)
  {
    var r := MakeRoom(w, cfg, data, fault);
    if r.state != w {
      assert r == Rotation.Rotate(w, true, fault);
      Rotation.RotatePreservesRecords(w, true, fault);
      if Inv(w) {
        Rotation.RotatePreservesInv(w, true, fault);
      }
    }
  }

  lemma AppendRecords(w: FileWriter, data: Bytes, fault: Fault)
    requires w.open.Some?
    ensures var r := Append(w, data, fault);
      && (r.outcome == Ok ==> AllLines(r.state) == AllLines(w) + [Line(data, w.nextId, Name(w.open.value))])
      && (r.outcome.Failed? ==> AllLines(r.state) == AllLines(w))
      && (Inv(w) ==> Inv(r.state))
  {
    var s := w.open.value;
    var r := Append(w, data, fault);
    var l := Line(data, w.nextId, Name(s));
    assert Segs(w) == w.closed + [s];
    if r.outcome == Ok {
      var s' := r.state.open.value;
      assert Segs(r.state) == w.closed + [s'];
      FlattenAppend(w.closed, s);
      FlattenAppend(w.closed, s');
      assert Flatten(w.closed) + (s.lines + [l]) == Flatten(w.closed) + s.lines + [l];
      if Inv(w) {
        SegsInvAppendLine(w.closed, s, l, w.nextId);
      }
    } else if Inv(w) {
      SegsInvLater(Segs(w), w.nextId, w.nextId + 1);
    }
  }

  /** A successful write adds exactly one record, at the end, naming the segment
      it lands in; a failed write leaves the records as they were. */
  lemma WriteRecords(w: FileWriter, cfg: Config, data: Bytes, fault: Fault)
    ensures var r := Write(w, cfg, data, fault);
      && (r.outcome == Ok ==>
            AllLines(r.state) == AllLines(w) + [Line(data, r.state.nextId - 1, Name(r.state.open.value))])
      && (r.outcome.Failed? ==> AllLines(r.state) == AllLines(w))
  {
    if w.open.Some? {
      MakeRoomPreserves(w, cfg, data, fault);
      var room := MakeRoom(w, cfg, data, fault);
      if room.outcome == Ok {
        AppendRecords(room.state, data, fault);
      }
    }
  }

  /** Writing keeps the state invariant, whether it succeeds or fails. */
  lemma WritePreservesInv(w: FileWriter, cfg: Config, data: Bytes, fault: Fault)
    requires Inv(w)
    ensures Inv(Write(w, cfg, data, fault).state)
  {
    if w.open.Some? {
      var room := MakeRoom(w, cfg, data, fault);
      MakeRoomPreserves(w, cfg, data, fault);
      if room.outcome == Ok {
        var r := Append(room.state, data, fault);
        AppendRecords(room.state, data, fault);
        assert Write(w, cfg, data, fault) == r;
      } else {
        assert Write(w, cfg, data, fault) == room;
      }
    }
  }
}

=== FILE: paths.dfy ===
/**
 Slash-separated paths, as far as the writer uses them: joining a directory
 with a file name (filepath.Join) and taking the file part back off a path
 (the second result of filepath.Split).
 */
module Paths {

  predicate NoSlash(s: string) {
    forall i :: 0 <= i < |s| ==> s[i] != '/'
  }

  /** The directory followed by the name, with exactly the one separator between them that dir does not already end in. */
  function Join(dir: string, name: string): (p: string)
    ensures |dir| <= |p| && p[..|dir|] == dir
    ensures |name| <= |p| && p[|p| - |name|..] == name
    ensures |p| <= |dir| + 1 + |name|
    ensures dir != [] ==> |dir| + |name| <= |p|
    ensures dir != [] ==> |name| < |p| && p[|p| - |name| - 1] == '/'
    ensures dir == [] ==> p == name
  {
    if dir == [] then name
    else if dir[|dir| - 1] == '/' then dir + name
    else dir + "/" + name
  }

  /** Everything after the last separator of the path. */
  function FileOf(path: string): (name: string)
    ensures NoSlash(name)
    ensures |name| <= |path|
  {
    if path == [] || path[|path| - 1] == '/' then []
    else FileOf(path[..|path| - 1]) + [path[|path| - 1]]
  }

  /** A path that ends in a separator followed by a slash-free name has that name as its file part. */
  lemma {:induction false} FileOfAfterSeparator(dir: string, name: string)
    requires dir == [] || dir[|dir| - 1] == '/'
    requires NoSlash(name)
    ensures FileOf(dir + name) == name
    decreases |name|
  {
    if name == [] {
      assert dir + name == dir;
    } else {
      var p := dir + name;
      var init := name[..|name| - 1];
      var last := name[|name| - 1];
      assert p[|p| - 1] == last && last != '/';
      assert p[..|p| - 1] == dir + init;
      assert FileOf(p) == FileOf(dir + init) + [last];
      FileOfAfterSeparator(dir, init);
      assert name == init + [last];
    }
  }

  /** Splitting a joined path gives back the file name that was joined. */
  lemma FileOfJoin(dir: string, name: string)
    requires NoSlash(name)
    ensures FileOf(Join(dir, name)) == name
  {
    if dir == [] {
      FileOfAfterSeparator([], name);
      assert [] + name == name;
    } else if dir[|dir| - 1] == '/' {
      FileOfAfterSeparator(dir, name);
    } else {
      assert dir + "/" + name == (dir + "/") + name;
      FileOfAfterSeparator(dir + "/", name);
    }
  }

  /** Joining one directory with two different slash-free names gives two different paths. */
  lemma JoinInjective(dir: string, a: string, b: string)
    requires NoSlash(a) && NoSlash(b)
    ensures Join(dir, a) == Join(dir, b) ==> a == b
  {
    FileOfJoin(dir, a);
    FileOfJoin(dir, b);
  }
}

=== FILE: rotation.dfy ===
/**
 Segment rotation: moving the open segment into the closed directory under its
 own name and, on request, opening a fresh one. Rotation is reached from a
 size-triggered write, from the timer, from startup and from Close.
 */
module Rotation {
  import opened Segments

  /** Opens the replacement segment `<id>.ndjson` under a freshly drawn id.
      The id is drawn before the directory is made, so it is used up even when
      a later step fails. */
  function OpenFresh(w: FileWriter, createNew: bool, fault: Fault): (r: Step)
    requires w.open.None?
    ensures r.state.closed == w.closed && r.state.rotating == w.rotating
    ensures !createNew ==> r == Step(w, Ok)
    ensures createNew ==> r.state.nextId == w.nextId + 1
    ensures createNew && r.outcome == Ok ==> r.state.open == Some(Segment(w.nextId, []))
    ensures r.outcome.Failed? ==> r.state.open.None? && fault == FailAt(r.outcome.op)
    ensures r.outcome.Failed? <==> createNew && (fault == FailAt(MkdirOpen) || fault == FailAt(OpenFile))
  {
    if !createNew then Step(w, Ok)
    else
      var id := w.nextId;
      var drawn := w.(nextId := id + 1);
      if fault == FailAt(MkdirOpen) then Step(drawn, Failed(MkdirOpen))
      else if fault == FailAt(OpenFile) then Step(drawn, Failed(OpenFile))
      else Step(drawn.(open := Some(Segment(id, []))), Ok)
  }

  /** The filesystem calls of the move, in the order the writer makes them. */
  predicate FailsDuringMove(fault: Fault) {
    fault.FailAt? && fault.op in {Stat, CloseFile, MkdirClosed, Rename}
  }

  /** Rotates the writer. If another rotation holds the flag, nothing happens
      and success is reported. Otherwise the open segment, if any, is moved to
      the closed segments unchanged, and when createNew is set a fresh empty
      segment is opened. A failing call stops the rotation where it is. */
  function Rotate(w: FileWriter, createNew: bool, fault: Fault): (r: Step)
    ensures w.rotating ==> r == Step(w, Ok)
    ensures r.state.rotating == w.rotating
    ensures fault == NoFault ==> r.outcome == Ok
    ensures r.outcome.Failed? ==> fault == FailAt(r.outcome.op)
    ensures r.outcome.Failed? <==> (!w.rotating && ((w.open.Some? && FailsDuringMove(fault)) || (createNew && (fault == FailAt(MkdirOpen) || fault == FailAt(OpenFile)))))
    ensures !w.rotating && r.outcome == Ok ==>
      && r.state.closed == Segs(w)
      && r.state.open == (if createNew then Some(Segment(w.nextId, [])) else None)
    ensures !w.rotating && r.outcome == Ok ==> r.state.nextId == w.nextId + (if createNew then 1 else 0)
    ensures !w.rotating && w.open.Some? && FailsDuringMove(fault) ==> r == Step(w, Failed(fault.op))
    ensures !w.rotating && createNew && (fault == FailAt(MkdirOpen) || fault == FailAt(OpenFile)) ==>
      r == Step(w.(open := None, closed := Segs(w), nextId := w.nextId + 1), Failed(fault.op))
    ensures r.outcome.Failed? ==>
      || r == Step(w, Failed(fault.op))
      || (r.state.open == None && r.state.closed == Segs(w) && r.state.nextId == w.nextId + 1)
  {
    if w.rotating then Step(w, Ok)
    else
      match w.open
      case None => OpenFresh(w, createNew, fault)
      case Some(s) =>
        if FailsDuringMove(fault) then Step(w, Failed(fault.op))
        else OpenFresh(w.(open := None, closed := w.closed + [s]), createNew, fault)
  }

  /** Whatever happens, a rotation leaves the segments on disk as they were,
      except for at most one new empty segment named by the next draw. */
  lemma RotateSegments(w: FileWriter, createNew: bool, fault: Fault)
    ensures var r := Rotate(w, createNew, fault).state;
      || (Segs(r) == Segs(w) && w.nextId <= r.nextId)
      || (Segs(r) == Segs(w) + [Segment(w.nextId, [])] && r.nextId == w.nextId + 1)
  {
    var r := Rotate(w, createNew, fault).state;
    if !w.rotating {
      match w.open
      case None =>
        assert Segs(w) == w.closed;
      case Some(s) =>
    }
  }

  /** The state after rotating holds exactly the records it held before, in
      the same order: none is lost, duplicated or reordered. */
  lemma RotatePreservesRecords(w: FileWriter, createNew: bool, fault: Fault)
    ensures AllLines(Rotate(w, createNew, fault).state) == AllLines(w)
  {
    RotateSegments(w, createNew, fault);
    if Segs(Rotate(w, createNew, fault).state) != Segs(w) {
      FlattenAddEmpty(Segs(w), Segment(w.nextId, []));
    }
  }

  /** Rotation keeps the state invariant. */
  lemma RotatePreservesInv(w: FileWriter, createNew: bool, fault: Fault)
    requires Inv(w)
    ensures Inv(Rotate(w, createNew, fault).state)
  {
    var r := Rotate(w, createNew, fault).state;
    RotateSegments(w, createNew, fault);
    if Segs(r) == Segs(w) {
      SegsInvLater(Segs(w), w.nextId, r.nextId);
    } else {
      SegsInvAddEmpty(Segs(w), w.nextId);
    }
  }

  /** A fresh segment is named unlike every segment already on disk. */
  lemma RotateNamesFresh(w: FileWriter, createNew: bool, fault: Fault, i: int)
    requires Inv(w)
    requires !w.rotating && createNew && Rotate(w, createNew, fault).outcome == Ok
    requires 0 <= i < |Segs(w)|
    ensures Name(Rotate(w, createNew, fault).state.open.value) != Name(Segs(w)[i])
  {
    assert Segs(w)[i] in Segs(w);
    FileNameInjective(w.nextId, Segs(w)[i].id);
  }

  /** Body of a timer tick: with the write lock held, Stat the open file and
      rotate (creating a new segment) only when it is non-empty. The error of
      the rotation is dropped. */
  function Tick(w: FileWriter, fault: Fault): (r: FileWriter)
    ensures w.open.None? || fault == FailAt(SizeCheck) ==> r == w
    ensures w.open.Some? && Size(w.open.value.lines) == 0 ==> r == w
    ensures w.open.Some? && Size(w.open.value.lines) > 0 && fault != FailAt(SizeCheck) ==>
      r == Rotate(w, true, fault).state
  {
    match w.open
    case None => w
    case Some(s) =>
      if fault == FailAt(SizeCheck) then w
      else if Size(s.lines) > 0 then Rotate(w, true, fault).state
      else w
  }

  /** An undisturbed tick rotates a non-empty open segment into the closed ones and opens a fresh one. */
  lemma TickRotatesNonEmpty(w: FileWriter)
    requires w.open.Some? && w.open.value.lines != [] && !w.rotating
    ensures Tick(w, NoFault).closed == w.closed + [w.open.value]
    ensures Tick(w, NoFault).open == Some(Segment(w.nextId, []))
  {
  }

  lemma TickPreserves(w: FileWriter, fault: Fault)
    requires Inv(w)
    ensures Inv(Tick(w, fault))
    ensures AllLines(Tick(w, fault)) == AllLines(w)
  {
    RotatePreservesInv(w, true, fault);
    RotatePreservesRecords(w, true, fault);
  }

  /** The rotation Close makes, under the write lock: a final rotation that opens
      nothing. Close logs its error and reports success regardless. */
  function Close(w: FileWriter, fault: Fault): (r: FileWriter)
    ensures r.rotating == w.rotating
    ensures !w.rotating && !FailsDuringMove(fault) ==> r.open == None && r.closed == Segs(w)
  {
    Rotate(w, false, fault).state
  }

  lemma ClosePreserves(w: FileWriter, fault: Fault)
    requires Inv(w)
    ensures Inv(Close(w, fault))
    ensures AllLines(Close(w, fault)) == AllLines(w)
  {
    RotatePreservesInv(w, false, fault);
    RotatePreservesRecords(w, false, fault);
  }

  /** The writer as NewFileWriter leaves it: no segment yet, then a forced rotation that opens the first one. */
  function Start(fault: Fault): (r: Step)
    ensures Inv(r.state) && !r.state.rotating && r.state.closed == []
    ensures fault == NoFault ==> r == Step(FileWriter(Some(Segment(0, [])), [], false, 1), Ok)
  {
    Rotate(FileWriter(None, [], false, 0), true, fault)
  }
}

=== FILE: segments.dfy ===
/**
 The writer's state with the filesystem abstracted away: at most one open
 segment (the file under <data>/open the writer appends to), the closed
 segments (the files under <data>/closed awaiting upload), the flag that stands
 for the `rotating` try-lock being held by another rotation, and the next
 draw of the fresh-name supply.
 */
module Segments {
  import Ids
  import Paths

  datatype Option<T> = None | Some(value: T)

  newtype byte = b: int | 0 <= b < 256

  /** The caller's record, as the raw bytes of its JSON text. */
  type Bytes = seq<byte>

  /** The filesystem calls the writer makes, each of which may fail. */
  datatype FsOp =
    | SizeCheck   // Stat of the open file before appending or on a timer tick
    | Stat        // Stat of the open file at the start of a rotation
    | CloseFile
    | MkdirClosed
    | Rename
    | MkdirOpen
    | OpenFile
    | WriteLine

  /** Which filesystem call, if any, fails during one operation; every other call succeeds. */
  datatype Fault = NoFault | FailAt(op: FsOp)

  /** What an operation reports to its caller. */
  datatype Outcome = Ok | Failed(op: FsOp)

  /** One persisted line: the caller's record merged with its metadata, the
      `__row_id` (the text of draw `row`) and the `__batch_file`. */
  datatype Line = Line(data: Bytes, row: nat, batchFile: string)

  /** A segment file, named by the draw `id` it was created with. */
  datatype Segment = Segment(id: nat, lines: seq<Line>)

  datatype FileWriter = FileWriter(open: Option<Segment>, closed: seq<Segment>, rotating: bool, nextId: nat)

  /** The result of an operation that reports an error: the state it leaves and the outcome. */
  datatype Step = Step(state: FileWriter, outcome: Outcome)

  /** The settings the core reads: directories, destination and size threshold. */
  datatype Config = Config(
    dataDir: string,
    uploadDir: string,
    bucket: string,
    tags: map<string, string>,
    maxSizeBytes: int)

  const Extension: string := ".ndjson"

  /** The base name of the segment created with draw id: `<id>.ndjson`. */
  function FileName(id: nat): (name: string)
    ensures Paths.NoSlash(name)
    ensures |name| > |Extension| && name[|name| - |Extension|..] == Extension
  {
    Ids.Text(id) + Extension
  }

  lemma FileNameInjective(a: nat, b: nat)
    ensures FileName(a) == FileName(b) ==> a == b
  {
    if FileName(a) == FileName(b) {
      assert Ids.Text(a) == FileName(a)[..|FileName(a)| - |Extension|];
      assert Ids.Text(b) == FileName(b)[..|FileName(b)| - |Extension|];
      Ids.TextInjective(a, b);
    }
  }

  function Name(s: Segment): string {
    FileName(s.id)
  }

  function OpenDir(cfg: Config): string {
    Paths.Join(cfg.dataDir, "open")
  }

  const MetaOpen: string := "{\"__row_id\": \""
  const MetaMiddle: string := "\", \"__batch_file\": \""
  const MetaClose: string := "\"}"

  /** The metadata object written beside the record. */
  function MetaText(l: Line): string {
    MetaOpen + Ids.Text(l.row) + MetaMiddle + l.batchFile + MetaClose
  }

  /** The metadata reads back unambiguously: its row id ends at the first quote
      after the opening, and the batch file is what lies between the middle
      part and the closing. So equal metadata means equal row and batch file. */
  lemma MetaTextDetermines(l: Line, m: Line)
    ensures MetaText(l) == MetaText(m) ==> l.row == m.row && l.batchFile == m.batchFile
  {
    if MetaText(l) == MetaText(m) {
      var t, u := Ids.Text(l.row), Ids.Text(m.row);
      var x, y := MetaText(l), MetaText(m);
      var o := |MetaOpen|;
      assert x == MetaOpen + t + (MetaMiddle + l.batchFile + MetaClose);
      assert y == MetaOpen + u + (MetaMiddle + m.batchFile + MetaClose);
      if |t| < |u| {
        QuoteEndsText(u, |t|, y, o);
        assert false;
      } else if |u| < |t| {
        QuoteEndsText(t, |u|, x, o);
        assert false;
      }
      assert t == x[o..o + |t|] == y[o..o + |u|] == u;
      Ids.TextInjective(l.row, m.row);
      var b := o + |t| + |MetaMiddle|;
      assert x[b..|x| - |MetaClose|] == l.batchFile;
      assert y[b..|y| - |MetaClose|] == m.batchFile;
    }
  }

  /** A row id text holds no quote, so the quote that follows it in the metadata
      cannot fall inside another row id text placed at the same offset. */
  lemma QuoteEndsText(t: string, i: int, x: string, o: int)
    requires forall k :: 0 <= k < |t| ==> Ids.IsDigit(t[k])
    requires 0 <= i < |t| && 0 <= o && o + |t| <= |x| && x[o..o + |t|] == t
    ensures x[o + i] != '"'
  {
  }

  /** Bytes one line occupies in its file: the record, the metadata and the newline. */
  function LineSize(l: Line): nat {
    |l.data| + |MetaText(l)| + 1
  }

  /** The size a Stat of a segment file holding these lines reports. */
  function Size(lines: seq<Line>): (n: nat)
    ensures n == 0 <==> lines == []
  {
    if lines == [] then 0 else Size(lines[..|lines| - 1]) + LineSize(lines[|lines| - 1])
  }

  lemma SizeAppend(lines: seq<Line>, l: Line)
    ensures Size(lines + [l]) == Size(lines) + LineSize(l)
  {
    assert (lines + [l])[..|lines|] == lines;
  }

  /** Every segment on disk: the closed ones, then the open one if there is one. */
  function Segs(w: FileWriter): seq<Segment> {
    w.closed + (if w.open.Some? then [w.open.value] else [])
  }

  /** The lines of the segments, segment after segment. */
  function Flatten(ss: seq<Segment>): seq<Line> {
    if ss == [] then [] else Flatten(ss[..|ss| - 1]) + ss[|ss| - 1].lines
  }

  lemma FlattenAppend(ss: seq<Segment>, s: Segment)
    ensures Flatten(ss + [s]) == Flatten(ss) + s.lines
  {
    assert (ss + [s])[..|ss|] == ss;
  }

  lemma FlattenAddEmpty(ss: seq<Segment>, e: Segment)
    requires e.lines == []
    ensures Flatten(ss + [e]) == Flatten(ss)
  {
    FlattenAppend(ss, e);
  }

  /** Every record the writer holds locally, in the order the segments were opened. */
  function AllLines(w: FileWriter): seq<Line> {
    Flatten(Segs(w))
  }

  predicate RowsDistinct(lines: seq<Line>) {
    forall a, b :: 0 <= a < b < |lines| ==> lines[a].row != lines[b].row
  }

  predicate IdsDistinct(ss: seq<Segment>) {
    forall i, j :: 0 <= i < j < |ss| ==> ss[i].id != ss[j].id
  }

  /** Every segment id and every row was drawn before next. */
  predicate DrawnBefore(ss: seq<Segment>, next: nat) {
    && (forall s :: s in ss ==> s.id < next)
    && (forall s, l :: s in ss && l in s.lines ==> l.row < next)
  }

  /** Each line's batch file names the segment holding it. */
  predicate BatchFilesName(ss: seq<Segment>) {
    forall s, l :: s in ss && l in s.lines ==> l.batchFile == Name(s)
  }

  /** No two lines, in one segment or in two, share a row. */
  predicate RowsUnique(ss: seq<Segment>) {
    && (forall s :: s in ss ==> RowsDistinct(s.lines))
    && (forall s, t, l, m :: s in ss && t in ss && l in s.lines && m in t.lines && l.row == m.row ==> s.id == t.id)
  }

  /** The invariant of a list of segments on disk, given the next draw of the supply. */
  predicate SegsInv(ss: seq<Segment>, next: nat) {
    DrawnBefore(ss, next) && IdsDistinct(ss) && BatchFilesName(ss) && RowsUnique(ss)
  }

  /** The state invariant. */
  predicate Inv(w: FileWriter) {
    SegsInv(Segs(w), w.nextId)
  }

  /** Drawing more names keeps the invariant. */
  lemma SegsInvLater(ss: seq<Segment>, next: nat, later: nat)
    requires SegsInv(ss, next) && next <= later
    ensures SegsInv(ss, later)
  {
  }

  /** Keeping only some of the segments, without repeating one, keeps the invariant. */
  lemma SegsInvKeep(ss: seq<Segment>, kept: seq<Segment>, next: nat)
    requires SegsInv(ss, next)
    requires forall s :: s in kept ==> s in ss
    requires IdsDistinct(kept)
    ensures SegsInv(kept, next)
  {
  }

  /** Adding an empty segment named by the next draw keeps the invariant. */
  lemma SegsInvAddEmpty(ss: seq<Segment>, next: nat)
    requires SegsInv(ss, next)
    ensures SegsInv(ss + [Segment(next, [])], next + 1)
  {
    var rs := ss + [Segment(next, [])];
    forall s | s in rs ensures s == Segment(next, []) || s in ss {
    }
    forall i, j | 0 <= i < j < |rs| ensures rs[i].id != rs[j].id {
      if j < |ss| {
        assert rs[i] == ss[i] && rs[j] == ss[j];
      } else {
        assert rs[i] in ss;
      }
    }
  }

  /** Appending, to the last segment, a line whose row is the next draw and
      whose batch file names that segment keeps the invariant. */
  lemma SegsInvAppendLine(closed: seq<Segment>, s: Segment, l: Line, next: nat)
    requires SegsInv(closed + [s], next)
    requires l.row == next && l.batchFile == Name(s)
    ensures SegsInv(closed + [s.(lines := s.lines + [l])], next + 1)
  {
    var ss := closed + [s];
    var s' := s.(lines := s.lines + [l]);
    var rs := closed + [s'];
    assert s in ss;
    forall t | t in rs ensures t == s' || t in ss {
    }
    forall x | x in s'.lines ensures x == l || x in s.lines {
    }
    assert DrawnBefore(rs, next + 1);
    forall i, j | 0 <= i < j < |rs| ensures rs[i].id != rs[j].id {
      assert ss[i].id == rs[i].id && ss[j].id == rs[j].id;
    }
    assert BatchFilesName(rs);
    AppendLineRows(closed, s, l, next);
  }

  lemma AppendLineRows(closed: seq<Segment>, s: Segment, l: Line, next: nat)
    requires DrawnBefore(closed + [s], next) && IdsDistinct(closed + [s]) && RowsUnique(closed + [s])
    requires l.row == next
    ensures RowsUnique(closed + [s.(lines := s.lines + [l])])
  {
    var ss := closed + [s];
    var s' := s.(lines := s.lines + [l]);
    var rs := closed + [s'];
    assert s in ss;
    AppendFreshRow(s.lines, l, next);
    forall t | t in rs ensures RowsDistinct(t.lines) {
      if t != s' {
        assert t in ss;
      }
    }
    forall t, u, x, y | t in rs && u in rs && x in t.lines && y in u.lines && x.row == y.row
      ensures t.id == u.id
    {
      AppendedRowOwner(closed, s, l, next, t, x);
      AppendedRowOwner(closed, s, l, next, u, y);
    }
  }

  /** A line whose row is above every row of a segment keeps the rows distinct. */
  lemma AppendFreshRow(lines: seq<Line>, l: Line, next: nat)
    requires RowsDistinct(lines) && l.row == next
    requires forall m :: m in lines ==> m.row < next
    ensures RowsDistinct(lines + [l])
  {
    var ls := lines + [l];
    forall a, b | 0 <= a < b < |ls| ensures ls[a].row != ls[b].row {
      if b < |lines| {
        assert ls[a] == lines[a] && ls[b] == lines[b];
      } else {
        assert lines[a] in lines;
      }
    }
  }

  /** After appending, a line of a segment on disk either is the appended line
      in the extended segment or is a line it held before, in a segment that was
      there before with the same id. */
  lemma AppendedRowOwner(closed: seq<Segment>, s: Segment, l: Line, next: nat, t: Segment, x: Line)
    requires t in closed + [s.(lines := s.lines + [l])] && x in t.lines
    ensures exists t0 :: t0 in closed + [s] && t0.id == t.id && (x in t0.lines || (x == l && t0 == s))
  {
    if t == s.(lines := s.lines + [l]) {
      assert s in closed + [s];
      if x != l {
        assert x in s.lines;
      }
    } else {
      assert t in closed + [s];
    }
  }

  /** Under the invariant no two segments have the same file name. */
  lemma NamesDistinct(w: FileWriter, i: int, j: int)
    requires Inv(w)
    requires 0 <= i < j < |Segs(w)|
    ensures Name(Segs(w)[i]) != Name(Segs(w)[j])
  {
    FileNameInjective(Segs(w)[i].id, Segs(w)[j].id);
  }

  /** Under the invariant every record sits at exactly one place: if the same
      line is found at two positions, they are the same segment and the same
      line number. The segment is the one its batch file names. */
  lemma RecordInOnePlace(w: FileWriter, i: int, a: int, j: int, b: int)
    requires Inv(w)
    requires 0 <= i < |Segs(w)| && 0 <= a < |Segs(w)[i].lines|
    requires 0 <= j < |Segs(w)| && 0 <= b < |Segs(w)[j].lines|
    requires Segs(w)[i].lines[a] == Segs(w)[j].lines[b]
    ensures i == j && a == b
    ensures Segs(w)[i].lines[a].batchFile == Name(Segs(w)[i])
  {
    var ss := Segs(w);
    var l := ss[i].lines[a];
    assert ss[i] in ss && l in ss[i].lines;
    assert ss[j] in ss && l in ss[j].lines;
    FileNameInjective(ss[i].id, ss[j].id);
    assert RowsDistinct(ss[i].lines);
  }
}

=== FILE: upload.dfy ===
/**
 The upload pump. One pass lists the closed segments and, for each in turn,
 uploads a non-empty one to object storage and announces it on the queue, then
 deletes the local file. An empty segment is deleted without either step. A
 failed upload or announcement ends the process, leaving the segment in place.
 */
module Upload {
  import opened Segments
  import Paths
  import Rotation

  /** What object storage and the queue hold: objects by key in the configured bucket, and the messages sent so far. */
  datatype Remote = Remote(objects: map<string, seq<Line>>, queue: seq<map<string, string>>)

  /** How each external call goes for one segment: opening the local file,
      putting the object, sending the message, removing the local file. */
  datatype Attempt = Attempt(fileOpened: bool, put: bool, sent: bool, removed: bool) {
    predicate Uploads() {
      fileOpened && put && sent
    }
  }

  /** The object key of a segment: the upload directory joined with its file name. */
  function Key(cfg: Config, s: Segment): (k: string)
    ensures |cfg.uploadDir| < |k| && k[..|cfg.uploadDir|] == cfg.uploadDir
    ensures |Name(s)| <= |k| && k[|k| - |Name(s)|..] == Name(s)
    ensures |cfg.uploadDir| + |Name(s)| <= |k|
    ensures cfg.uploadDir != [] ==> |Name(s)| < |k| && k[|k| - |Name(s)| - 1] == '/'
  {
    Paths.Join(cfg.uploadDir, Name(s))
  }

  /** The key names its segment: its file part is the segment's file name. */
  lemma KeyNamesSegment(cfg: Config, s: Segment)
    ensures Paths.FileOf(Key(cfg, s)) == Name(s)
  {
    Paths.FileOfJoin(cfg.uploadDir, Name(s));
  }

  /** Distinct segments are uploaded under distinct keys. */
  lemma KeyInjective(cfg: Config, s: Segment, t: Segment)
    ensures Key(cfg, s) == Key(cfg, t) ==> s.id == t.id
  {
    Paths.JoinInjective(cfg.uploadDir, Name(s), Name(t));
    FileNameInjective(s.id, t.id);
  }

  /** The notification: every tag, then `bucket` and `key` set after the tags,
      so that they win over tags of the same name. */
  function Message(tags: map<string, string>, bucket: string, key: string): (m: map<string, string>)
    ensures m.Keys == tags.Keys + {"bucket", "key"}
    ensures m["bucket"] == bucket && m["key"] == key
    ensures forall t :: t in tags && t != "bucket" && t != "key" ==> m[t] == tags[t]
  {
    tags["bucket" := bucket]["key" := key]
  }

  /** Builds the notification the way the writer does, copying the tags one by one. */
  method BuildMessage(tags: map<string, string>, bucket: string, key: string) returns (m: map<string, string>)
    ensures m == Message(tags, bucket, key)
  {
    m := map[];
    var pending := tags.Keys;
    while pending != {}
      invariant pending <= tags.Keys
      invariant m.Keys == tags.Keys - pending
      invariant forall t :: t in m ==> m[t] == tags[t]
      decreases pending
    {
      var t :| t in pending;
      m := m[t := tags[t]];
      pending := pending - {t};
    }
    assert m == tags;
    m := m["bucket" := bucket];
    m := m["key" := key];
  }

  /** The message announcing a segment: the configured tags, the bucket, and the segment's key. */
  function Notification(cfg: Config, s: Segment): (m: map<string, string>)
    ensures m.Keys == cfg.tags.Keys + {"bucket", "key"}
    ensures m["bucket"] == cfg.bucket && m["key"] == Key(cfg, s)
    ensures forall t :: t in cfg.tags && t != "bucket" && t != "key" ==> m[t] == cfg.tags[t]
  {
    Message(cfg.tags, cfg.bucket, Key(cfg, s))
  }

  /** The segment's records are stored under its key and its notification has been sent. */
  predicate Delivered(cfg: Config, s: Segment, remote: Remote) {
    && Key(cfg, s) in remote.objects
    && remote.objects[Key(cfg, s)] == s.lines
    && Notification(cfg, s) in remote.queue
  }

  datatype Sent = Sent(remote: Remote, ok: bool)

  /** Uploads one segment and announces it; the first failing call ends the attempt. */
  function UploadFile(cfg: Config, s: Segment, a: Attempt, remote: Remote): (r: Sent)
    ensures r.ok <==> a.Uploads()
    ensures r.ok ==> Delivered(cfg, s, r.remote)
    ensures r.ok ==> r.remote.queue == remote.queue + [Notification(cfg, s)]
    ensures remote.queue <= r.remote.queue && |r.remote.queue| <= |remote.queue| + 1
    ensures r.remote.objects.Keys <= remote.objects.Keys + {Key(cfg, s)}
    ensures forall k :: k in remote.objects && k != Key(cfg, s) ==>
      k in r.remote.objects && r.remote.objects[k] == remote.objects[k]
    ensures |r.remote.queue| == |remote.queue| + 1 ==> r.remote.queue[|remote.queue|] == Notification(cfg, s)
    ensures a.fileOpened && a.put ==> Key(cfg, s) in r.remote.objects && r.remote.objects[Key(cfg, s)] == s.lines
    ensures !(a.fileOpened && a.put) ==> r.remote == remote
    ensures !r.ok ==> r.remote.queue == remote.queue
  {
    if !a.fileOpened || !a.put then Sent(remote, false)
    else
      var stored := remote.(objects := remote.objects[Key(cfg, s) := s.lines]);
      if !a.sent then Sent(stored, false)
      else Sent(stored.(queue := stored.queue + [Notification(cfg, s)]), true)
  }

  datatype EntryResult = EntryResult(remote: Remote, removed: bool, fatal: bool)

  /** One entry of the listing. An empty segment is only removed; a non-empty
      one is uploaded first and removed only if that succeeded; a failed upload
      is fatal. */
  function PumpEntry(cfg: Config, s: Segment, a: Attempt, remote: Remote): (r: EntryResult)
    ensures Size(s.lines) == 0 ==> r == EntryResult(remote, a.removed, false)
    ensures Size(s.lines) > 0 ==> (r.fatal <==> !a.Uploads())
    ensures r.fatal ==> !r.removed
    ensures !r.fatal ==> r.removed == a.removed
    ensures r.removed && Size(s.lines) > 0 ==> Delivered(cfg, s, r.remote)
  {
    if Size(s.lines) > 0 then
      var up := UploadFile(cfg, s, a, remote);
      if up.ok then EntryResult(up.remote, a.removed, false) else EntryResult(up.remote, false, true)
    else EntryResult(remote, a.removed, false)
  }

  datatype Run = Run(kept: seq<Segment>, remote: Remote, halted: bool)

  predicate FailsUpload(s: Segment, oracle: Segment -> Attempt) {
    Size(s.lines) > 0 && !oracle(s).Uploads()
  }

  /** The entries of one listing, in order. On a fatal failure the process
      stops: that entry and all after it stay. */
  function PumpEntries(cfg: Config, entries: seq<Segment>, remote: Remote, oracle: Segment -> Attempt): (r: Run)
    ensures forall s :: s in r.kept ==> s in entries
    ensures remote.queue <= r.remote.queue
    decreases |entries|
  {
    if entries == [] then Run([], remote, false)
    else
      var s := entries[0];
      var e := PumpEntry(cfg, s, oracle(s), remote);
      if e.fatal then Run(entries, e.remote, true)
      else
        var rest := PumpEntries(cfg, entries[1..], e.remote, oracle);
        Run(if e.removed then rest.kept else [s] + rest.kept, rest.remote, rest.halted)
  }

  /** A pass touches no stored object except under the key of a non-empty entry. */
  lemma {:induction false} PumpLeavesOtherObjects(cfg: Config, entries: seq<Segment>, remote: Remote, oracle: Segment -> Attempt, k: string)
    requires k in remote.objects
    requires forall s :: s in entries && Size(s.lines) > 0 ==> Key(cfg, s) != k
    ensures var r := PumpEntries(cfg, entries, remote, oracle).remote;
      k in r.objects && r.objects[k] == remote.objects[k]
    decreases |entries|
  {
    if entries != [] {
      var s := entries[0];
      var e := PumpEntry(cfg, s, oracle(s), remote);
      assert s in entries;
      if !e.fatal {
        var tail := entries[1..];
        assert forall t :: t in tail ==> t in entries;
        PumpLeavesOtherObjects(cfg, tail, e.remote, oracle, k);
      }
    }
  }

  /** A pass halts only at a non-empty segment that failed to upload, and
      that segment is still on disk. */
  lemma {:induction false} PumpHaltsOnlyOnFailure(cfg: Config, entries: seq<Segment>, remote: Remote, oracle: Segment -> Attempt)
    ensures var r := PumpEntries(cfg, entries, remote, oracle);
      r.halted ==> exists s :: s in r.kept && FailsUpload(s, oracle)
    decreases |entries|
  {
    if entries != [] {
      var s := entries[0];
      var e := PumpEntry(cfg, s, oracle(s), remote);
      if e.fatal {
        assert s in entries && FailsUpload(s, oracle);
      } else {
        var tail := entries[1..];
        PumpHaltsOnlyOnFailure(cfg, tail, e.remote, oracle);
        var rest := PumpEntries(cfg, tail, e.remote, oracle);
        var r := PumpEntries(cfg, entries, remote, oracle);
        if rest.halted {
          var x :| x in rest.kept && FailsUpload(x, oracle);
          assert x in r.kept;
        }
      }
    }
  }

  /** Every non-empty segment that fails to upload halts the pass. */
  lemma {:induction false} PumpHaltsOnFailure(cfg: Config, entries: seq<Segment>, remote: Remote, oracle: Segment -> Attempt, s: Segment)
    requires s in entries && FailsUpload(s, oracle)
    ensures PumpEntries(cfg, entries, remote, oracle).halted
    decreases |entries|
  {
    var e := PumpEntry(cfg, entries[0], oracle(entries[0]), remote);
    if !e.fatal {
      assert s != entries[0];
      assert s in entries[1..] by {
        assert entries == [entries[0]] + entries[1..];
      }
      PumpHaltsOnFailure(cfg, entries[1..], e.remote, oracle, s);
    }
  }

  /** A pass halts exactly when some non-empty segment fails to upload. */
  lemma PumpHaltsIffFailure(cfg: Config, entries: seq<Segment>, remote: Remote, oracle: Segment -> Attempt)
    ensures PumpEntries(cfg, entries, remote, oracle).halted <==> exists s :: s in entries && FailsUpload(s, oracle)
  {
    PumpHaltsOnlyOnFailure(cfg, entries, remote, oracle);
    if s :| s in entries && FailsUpload(s, oracle) {
      PumpHaltsOnFailure(cfg, entries, remote, oracle, s);
    }
  }

  /** Without a halt, precisely the segments whose removal failed stay. */
  lemma {:induction false} PumpKeepsUnremoved(cfg: Config, entries: seq<Segment>, remote: Remote, oracle: Segment -> Attempt)
    ensures var r := PumpEntries(cfg, entries, remote, oracle);
      !r.halted ==> forall s :: s in entries ==> (s in r.kept <==> !oracle(s).removed)
    decreases |entries|
  {
    if entries != [] {
      var s := entries[0];
      var tail := entries[1..];
      var e := PumpEntry(cfg, s, oracle(s), remote);
      if !e.fatal {
        PumpKeepsUnremoved(cfg, tail, e.remote, oracle);
        var rest := PumpEntries(cfg, tail, e.remote, oracle);
        var r := PumpEntries(cfg, entries, remote, oracle);
        assert r.kept == (if e.removed then rest.kept else [s] + rest.kept);
        assert forall t :: t in entries <==> t == s || t in tail by {
          assert entries == [s] + tail;
        }
      }
    }
  }

  /** Dropping the first segment keeps the ids distinct, and the first one's id is not among the rest. */
  lemma TailDistinct(entries: seq<Segment>)
    requires entries != [] && IdsDistinct(entries)
    ensures IdsDistinct(entries[1..])
    ensures forall t :: t in entries[1..] ==> t.id != entries[0].id
  {
    var tail := entries[1..];
    forall i, j | 0 <= i < j < |tail| ensures tail[i].id != tail[j].id {
      assert tail[i] == entries[i + 1] && tail[j] == entries[j + 1];
    }
    forall t | t in tail ensures t.id != entries[0].id {
      var k :| 0 <= k < |tail| && tail[k] == t;
      assert entries[k + 1] == t;
    }
  }

  /** A pass never repeats a segment it keeps. */
  lemma {:induction false} PumpKeepsDistinct(cfg: Config, entries: seq<Segment>, remote: Remote, oracle: Segment -> Attempt)
    requires IdsDistinct(entries)
    ensures IdsDistinct(PumpEntries(cfg, entries, remote, oracle).kept)
    decreases |entries|
  {
    if entries != [] {
      var s := entries[0];
      var e := PumpEntry(cfg, s, oracle(s), remote);
      if !e.fatal {
        var tail := entries[1..];
        TailDistinct(entries);
        PumpKeepsDistinct(cfg, tail, e.remote, oracle);
        var rest := PumpEntries(cfg, tail, e.remote, oracle).kept;
        if !e.removed {
          ConsDistinct(s, rest);
        }
      }
    }
  }

  lemma ConsDistinct(s: Segment, rest: seq<Segment>)
    requires IdsDistinct(rest)
    requires forall t :: t in rest ==> t.id != s.id
    ensures IdsDistinct([s] + rest)
  {
    var kept := [s] + rest;
    forall i, j | 0 <= i < j < |kept| ensures kept[i].id != kept[j].id {
      if i == 0 {
        assert kept[j] in rest;
      } else {
        assert kept[i] == rest[i - 1] && kept[j] == rest[j - 1];
      }
    }
  }

  /** A segment leaves the closed directory only when it was empty or when its
      records are stored under its key and its notification was sent. */
  lemma {:induction false} PumpRemovesOnlyDelivered(cfg: Config, entries: seq<Segment>, remote: Remote, oracle: Segment -> Attempt)
    requires IdsDistinct(entries)
    ensures var r := PumpEntries(cfg, entries, remote, oracle);
      forall s :: s in entries && s !in r.kept ==> Size(s.lines) == 0 || Delivered(cfg, s, r.remote)
    decreases |entries|
  {
    if entries != [] {
      var s := entries[0];
      var tail := entries[1..];
      var e := PumpEntry(cfg, s, oracle(s), remote);
      if !e.fatal {
        TailDistinct(entries);
        PumpRemovesOnlyDelivered(cfg, tail, e.remote, oracle);
        var rest := PumpEntries(cfg, tail, e.remote, oracle);
        var r := PumpEntries(cfg, entries, remote, oracle);
        assert r.remote == rest.remote;
        assert r.kept == (if e.removed then rest.kept else [s] + rest.kept);
        forall t | t in entries && t !in r.kept
          ensures Size(t.lines) == 0 || Delivered(cfg, t, r.remote)
        {
          if t == s {
            if Size(s.lines) > 0 {
              StaysDelivered(cfg, s, tail, e.remote, oracle);
            }
          } else {
            assert entries == [s] + tail;
            assert t in tail && t !in rest.kept;
          }
        }
      }
    }
  }

  /** A delivered segment stays delivered while segments with other ids are pumped. */
  lemma StaysDelivered(cfg: Config, s: Segment, entries: seq<Segment>, remote: Remote, oracle: Segment -> Attempt)
    requires Delivered(cfg, s, remote)
    requires forall t :: t in entries ==> t.id != s.id
    ensures Delivered(cfg, s, PumpEntries(cfg, entries, remote, oracle).remote)
  {
    forall t | t in entries && Size(t.lines) > 0 ensures Key(cfg, t) != Key(cfg, s) {
      KeyInjective(cfg, s, t);
    }
    PumpLeavesOtherObjects(cfg, entries, remote, oracle, Key(cfg, s));
  }

  datatype Pass = Pass(state: FileWriter, remote: Remote, halted: bool, again: bool)

  /** One pass of the pump loop. A failed directory listing changes nothing;
      after a drain signal the loop ends with this pass; a fatal failure ends
      the process. */
  function PumpPass(w: FileWriter, cfg: Config, remote: Remote, listed: bool, drain: bool, oracle: Segment -> Attempt): (r: Pass)
    ensures r.state.open == w.open && r.state.nextId == w.nextId && r.state.rotating == w.rotating
    ensures forall s :: s in r.state.closed ==> s in w.closed
    ensures !listed ==> r == Pass(w, remote, false, !drain)
    ensures r.again <==> !drain && !r.halted
    ensures r.halted <==> listed && exists s :: s in w.closed && FailsUpload(s, oracle)
  {
    if !listed then Pass(w, remote, false, !drain)
    else
      var run := PumpEntries(cfg, w.closed, remote, oracle);
      PumpHaltsIffFailure(cfg, w.closed, remote, oracle);
      Pass(w.(closed := run.kept), run.remote, run.halted, !drain && !run.halted)
  }

  /** A pass keeps the state invariant. */
  lemma PumpPassPreservesInv(w: FileWriter, cfg: Config, remote: Remote, listed: bool, drain: bool, oracle: Segment -> Attempt)
    requires Inv(w)
    ensures Inv(PumpPass(w, cfg, remote, listed, drain, oracle).state)
  {
    var r := PumpPass(w, cfg, remote, listed, drain, oracle).state;
    var ss, rs := Segs(w), Segs(r);
    assert w.closed == ss[..|w.closed|];
    assert IdsDistinct(w.closed) by {
      forall i, j | 0 <= i < j < |w.closed| ensures w.closed[i].id != w.closed[j].id {
        assert w.closed[i] == ss[i] && w.closed[j] == ss[j];
      }
    }
    if listed {
      PumpKeepsDistinct(cfg, w.closed, remote, oracle);
    }
    assert IdsDistinct(r.closed);
    forall s | s in rs ensures s in ss {
      if s in r.closed {
        assert s in w.closed;
      }
    }
    forall i, j | 0 <= i < j < |rs| ensures rs[i].id != rs[j].id {
      if j == |r.closed| {
        assert rs[i] in w.closed;
        var k :| 0 <= k < |w.closed| && w.closed[k] == rs[i];
        assert ss[k] == rs[i] && ss[|w.closed|] == rs[j];
      } else {
        assert rs[i] == r.closed[i] && rs[j] == r.closed[j];
      }
    }
    SegsInvKeep(ss, rs, w.nextId);
  }

  /** No record is lost by a pass: each closed segment either is still on disk
      or was empty or was delivered to storage and announced. */
  lemma PumpPassLosesNothing(w: FileWriter, cfg: Config, remote: Remote, listed: bool, drain: bool, oracle: Segment -> Attempt)
    requires Inv(w)
    ensures var r := PumpPass(w, cfg, remote, listed, drain, oracle);
      forall s :: s in w.closed ==> s in r.state.closed || s.lines == [] || Delivered(cfg, s, r.remote)
  {
    var ss := Segs(w);
    assert w.closed == ss[..|w.closed|];
    assert IdsDistinct(w.closed) by {
      forall i, j | 0 <= i < j < |w.closed| ensures w.closed[i].id != w.closed[j].id {
        assert w.closed[i] == ss[i] && w.closed[j] == ss[j];
      }
    }
    if listed {
      PumpRemovesOnlyDelivered(cfg, w.closed, remote, oracle);
    }
  }

  /** Closing right after startup, with nothing written, still moves the empty
      first segment to the closed directory; the next pass removes it without
      uploading or announcing anything, and a drained pump stops. */
  lemma CloseRightAfterStart(cfg: Config, remote: Remote, oracle: Segment -> Attempt)
    requires oracle(Segment(0, [])).removed
    ensures var w := Rotation.Close(Rotation.Start(NoFault).state, NoFault);
      && w.open == None && w.closed == [Segment(0, [])]
      && var p := PumpPass(w, cfg, remote, true, true, oracle);
      && p.state.closed == [] && p.remote == remote && !p.halted && !p.again
  {
    var w := Rotation.Close(Rotation.Start(NoFault).state, NoFault);
    assert Segs(Rotation.Start(NoFault).state) == [Segment(0, [])];
    var run := PumpEntries(cfg, w.closed, remote, oracle);
    assert w.closed[1..] == [];
  }
}
